=== FILE: README.md ===
# Ynigo Mart kiosk — a Dafny model of `script.js`

The kiosk is a browser page backed by a SheetBest spreadsheet. It fetches the sheet's rows and keeps them as user objects in `allUsers`. Tapping a user opens a modal that shows their balance (`currentUser`), and a typed amount can be added to it with a PATCH to the user's row. A second screen posts a new profile: a name, a 150 × 150 cropped photo, an id one above the largest numeric id among the loaded users (or "1" when none is positive), and a balance of "0.00".

This project models the parts of `script.js` that compute or change state:

- `normalizeRow` and the projection of fetched rows onto users, with its `??` fallbacks and the name filter;
- `toMoney`, built on `parseFloat` and `Number.prototype.toFixed(2)`;
- the next-id `reduce` and the checks of the submit handler;
- the crop geometry of `cropToSquare`;
- the confirm handler of the top-up modal, and the global state it updates.

Modules, one file each:

- `Wrappers` (`wrappers.dfy`): `Option`.
- `JsText` (`jstext.dfy`): the string built-ins the script relies on.
  - `trim` over the ECMAScript white-space set;
  - `toLowerCase`;
  - `parseInt(s, 10)` and `String(i)`.
- `Money` (`money.dfy`): JavaScript numbers as exact decimals plus the two infinities, with NaN as `None`.
  - `parseFloat`;
  - `toFixed(2)`, in two steps: `Round` to a `Fixed` value (sign and whole cents), then `FixedText` to print it;
  - `toMoney`.
- `Rows` (`rows.dfy`): raw rows as JSON objects given by their `Object.keys` order.
  - `normalizeRow` is an imperative loop (`NormalizeRow`) proved equal to a specification fold (`Normalized`).
  - The projection into `User` values.
- `Profiles` (`profiles.dfy`): the next id and the submit handler's decisions.
- `Crop` (`crop.dfy`): `cropToSquare`'s source square and canvas size.
- `TopUp` (`topup.dfy`): the confirm handler's arithmetic, as a pure function from the amount text and the open user to the step it takes.
- `Kiosk` (`kiosk.dfy`): the mutable state and the handlers that update it.
  - `allUsers` is a sequence of `Profile` objects. A `Profile`'s `balance` is the only field the script assigns after construction.
  - `currentUser` is one of the objects `allUsers` held when the user was opened.
  - The modal's balance label and amount field are fields of the `Kiosk` class.

Behaviour of the script that the model keeps, some of it easy to miss:

- Accepted amounts:
  - Any amount `parseFloat` reads as positive is accepted, and that includes "Infinity". For a balance that reads as a finite number, the balance is then written as "Infinity" (`TopUp.InfinityAccepted`); for a balance of "-Infinity" the sum is NaN and "0.00" is written (`TopUp.InfinityOnNegativeInfinity`).
  - Trailing text after a number is ignored ("5abc" is 5).
- `toMoney`'s output:
  - It is two fraction digits for every finite value and for every unreadable one. It is not for infinities (`Money.ToMoneyShape`).
  - A value in (-0.005, 0) prints as "-0.00" (`Money.NegativeZeroCorner`), and `toMoney` maps that to "0.00". So `toMoney` is idempotent everywhere except on that one output (`Money.ToMoneyStable`, `Money.ToMoneyOfFixedText`).
- Top-up:
  - After a successful PATCH, the local balance is the locally computed text, not the sheet's reply.
  - The PATCH addresses the row by its index in the fetched array, not by id.
- The first id is "1", and non-numeric ids are ignored (`Profiles.NextIdOfNone`, `Profiles.NextIdIgnoresText`).
- The next id is computed over the loaded users only. Rows without a name are filtered out before the reduce, so their ids are never seen and can be issued again: a sheet whose only row has id "1" and no name gets a new profile with id "1" (`Profiles.NamelessIdIgnored`, `Profiles.NamelessIdReissued`).
- Negative balances are topped up like any other: "-3.00" plus "5" sends "2.00" (`TopUp.TopUpExact` holds for a balance of any sign).
- The capitalised fallbacks `row.ID`, `row.Id`, `row.Name`, `row.Image` and `row.Balance` can never apply, because `normalizeRow` lower-cases every key (`Rows.CapitalisedKeysAbsent`).
- The top-up is not atomic: the script awaits the PATCH before writing the result into `currentUser`, so a user switched to while the request is pending receives the previous user's new balance (see `Kiosk.Kiosk.ConfirmTopUp` under Left out).
- A reload builds new user objects and does not touch `currentUser`. After a reload the open user is therefore no longer one of `allUsers` (`Kiosk.Kiosk.LoadUsers`: the new objects are fresh).

## Model

| member | source | states |
|---|---|---|
| JsText.Trim | script.js:43 | `trim()` yields a string with no white space at either end, no longer than its input |
| JsText.TrimSlice | script.js:43 | `trim()` returns a contiguous part s[i..j] of its input, and everything before i and from j on is white space |
| JsText.TrimStartRemovesSpace | script.js:43 | everything dropped at the front is white space |
| JsText.TrimEndRemovesSpace | script.js:43 | everything dropped at the back is white space |
| JsText.Lower | script.js:43 | `toLowerCase()` keeps the length, maps each character on its own, and leaves no upper-case letter |
| JsText.NormKey | script.js:43 | a normalised key is trimmed and has no upper-case letter |
| JsText.NormKeyIdempotent | script.js:43 | normalising a key twice is the same as once |
| JsText.NormKeyOfNormal | script.js:43 | a key that is trimmed and has no upper-case letter is left as it is |
| JsText.ParseIntTrimStart | script.js:220 | `parseInt` (`JsText.ParseInt`) reads the optional sign and digits that follow exactly the leading white space `trim()` would drop, and is NaN exactly when no digit follows the sign |
| JsText.IntToString | script.js:223 | `String(i)` starts with '-' exactly when i is negative, followed by the decimal digits of the magnitude of i without a leading zero |
| JsText.ParseIntOfIntToString | script.js:220-223 | `parseInt(String(i)) == i` for every integer i |
| Money.ParseFloatTrimStart | script.js:49 | `parseFloat` (`Money.ParseFloat`) reads what follows exactly the leading white space `trim()` would drop |
| Money.Round | script.js:50 | the rounding step of `toFixed(2)` gives digits exactly for finite values, and keeps the sign of the value, so a negative value that rounds to zero cents stays negative (its cents are `Money.Cents`, see the next two rows) |
| Money.CentsExact | script.js:50 | with at most two fraction digits, `toFixed(2)` loses nothing |
| Money.CentsNearest | script.js:50 | otherwise `toFixed(2)` picks the nearest cent, the larger magnitude on a tie |
| Money.FixedTextShape | script.js:50 | the text `toFixed(2)` prints has the form [-]digits.dd exactly when the value is finite |
| Money.FixedRoundTrip | script.js:49-50 | `parseFloat` reads back every text that `toFixed(2)` prints as the value printed |
| Money.RoundFixedValue | script.js:50 | re-rounding a printed value gives the same value, except that -0.00 becomes 0.00 |
| Money.ToMoneyNumber | script.js:153-158 | `toMoney` of a number gives "0.00" for NaN |
| Money.ToMoneyNumberReadsBack | script.js:153-158 | `toMoney` of a number prints it rounded to cents: `parseFloat` reads the text back as the rounded value, and as zero for NaN |
| Money.CentsFixed | script.js:50 | a signed whole number of cents as `toFixed(2)` holds it: it stands for that number of cents, and zero is never negative |
| Money.ToMoney | script.js:48-51 | anything `parseFloat` cannot read gives "0.00" |
| Money.ToMoneyText | script.js:48-51 | `toMoney` prints the value it rounds to, zero for anything `parseFloat` cannot read |
| Money.ToMoneyShape | script.js:48-51 | `toMoney` gives two fraction digits exactly when the input is unreadable or finite |
| Money.ToMoneyOfFixedText | script.js:48-51 | `toMoney` returns its own output unchanged, except "-0.00", which becomes "0.00" |
| Money.ToMoneyStable | script.js:48-51 | `toMoney(toMoney(s)) == toMoney(s)` whenever the first result is not negative zero |
| Money.NegativeZeroCorner | script.js:50 | a negative value that rounds to zero cents prints as "-0.00" |
| Rows.NormalizeRow | script.js:40-46 | the loop builds the fold of the re-keyed properties, in `Object.keys` order, treating a missing row as `{}` |
| Rows.NormalizedHasKey | script.js:42-44 | every input key's normalised form is a key of the result |
| Rows.NormalizedKeySource | script.js:42-44 | every key of the result comes from an input key and holds that property's value |
| Rows.NormalizedLastWins | script.js:42-44 | among keys that normalise alike, the last one in iteration order supplies the value |
| Rows.NormalizedKeysNormal | script.js:40-46 | every key of a normalised row is trimmed and lower case |
| Rows.NormalizeIdempotent | script.js:40-46 | normalising an already normalised row, listed in any order, gives it back |
| Rows.Coalesce | script.js:87-91 | a `??` chain yields the value of the first key that is present and not null, and the fallback when there is none; it is never null when the fallback is not |
| Rows.CapitalisedKeysAbsent | script.js:86-91 | no capitalised key survives normalisation |
| Rows.KeepNamed | script.js:93 | the filter keeps exactly the users of its input with a non-empty name, and no more users than it was given |
| Rows.KeepNamedOrdered | script.js:93 | the filter preserves order |
| Rows.ProjectUsers | script.js:84-93 | a null body gives no users; every listed user has a name and the index of a row of the body |
| Rows.ProjectUsersSpec | script.js:84-93 | the user list is exactly the projected rows with a name, each tagged with its own index, in increasing index order |
| Rows.JsToString | script.js:88-91 | `.toString()` of a cell: a string is itself, a boolean is "true" or "false", and a number prints as text that `parseInt` reads back as that number |
| Rows.ProjectRow | script.js:84-87 | the object built for the row at index idx carries idx as its `_row` |
| Rows.ProjectRowFields | script.js:85-91 | id, name and image are the text of the lower-case key when it is present and not null, and "" otherwise; the balance is `toMoney` of the same, with "0.00" as the default |
| Rows.ProjectRowBalanceDefault | script.js:91 | a missing or null balance becomes "0.00" |
| Rows.Projected | script.js:84-92 | the `map` step: the object at index i is the projection of row i with index i |
| Rows.ProjectedAppend | script.js:84-92 | projecting one more row appends its user, with the next index |
| Rows.KeepNamedAppendNameless | script.js:93 | a user without a name appended to the input leaves the filtered list unchanged |
| Rows.ProjectUsersAppendNameless | script.js:84-93 | a row without a name appended to the body adds no user |
| Profiles.MaxId | script.js:219-222 | the reduce is at least 0 and at least every id `parseInt` can read |
| Profiles.MaxIdAttained | script.js:219-222 | the reduce is 0 or some user's id |
| Profiles.NextId | script.js:223 | `parseInt` reads the new id back as one more than the reduce |
| Profiles.NextIdFresh | script.js:219-223 | the new id reads back as a number ≥ 1, above every numeric id among the users given, so it differs from the id of every loaded user |
| Profiles.NextIdIgnoresText | script.js:220-221 | users whose id is not a number do not change the next id |
| Profiles.NextIdOfNone | script.js:218-223 | with no users the first id is "1" |
| Profiles.NamelessIdIgnored | script.js:219-223 | the next id for a body is unchanged by appending a row without a name, whatever its id |
| Profiles.NamelessIdReissued | script.js:219-223 | when the only row has id "1" and no name, the next id is that same "1" |
| Profiles.Submit | script.js:206-241 | missing name, missing file and unreadable image are each reported exactly when they occur, in that order; otherwise the posted row has the next id (`String(maxId + 1)`), the trimmed, non-empty name, the thumbnail and balance "0.00" |
| Profiles.SubmitFreshId | script.js:219-238 | a posted profile's id is numeric, at least 1, above every numeric id among the loaded users, and differs from the id of every loaded user |
| Crop.CropToSquare | script.js:182-189 | the square is the shorter side, centred in the picture and inside it; one offset is 0, both are 0 exactly for a square picture; the canvas is size × size |
| TopUp.Add | script.js:153 | `+` on numbers: NaN propagates, opposite infinities give NaN, an infinity absorbs a finite number, and a finite sum is exact: counted in any unit 10^f fine enough for both, it is the sum of the two counts |
| TopUp.BalanceNumberText | script.js:153 | reading the balance, with "0" standing in for an empty one, is `parseFloat` of that text |
| TopUp.TopUpRequest | script.js:147-154 | an amount is rejected exactly when it is NaN or ≤ 0; with no open user the handler fails; otherwise the PATCH goes to the open user's row |
| TopUp.SumCents | script.js:153 | a number of cents of either sign plus an amount with at most two fraction digits is exact |
| TopUp.PrintCents | script.js:154 | a whole number of cents of either sign prints as itself, with '-' when negative |
| TopUp.PrintSum | script.js:153-154 | `toMoney` of a balance in whole cents, of either sign, plus an amount with at most two fraction digits prints their exact sum in cents with its sign |
| TopUp.TopUpExact | script.js:147-154 | for a balance of a cents (a of either sign) and an amount of m × 10^e (e ≥ -2), the balance sent is exactly a + m × 10^(e+2) cents, printed with its sign and two fraction digits |
| TopUp.BalanceReadsBack | script.js:153-158 | a balance the kiosk stored, negative or not, reads back as its cents, so repeated top-ups stay exact |
| TopUp.ParseWhole | script.js:147 | a typed whole number reads as that number, so TopUpExact applies with e = 0 |
| TopUp.InfinityAccepted | script.js:147-154 | the amount "Infinity" passes both checks and, for a balance that reads as a finite number, sets the balance to "Infinity" |
| TopUp.InfinityOnNegativeInfinity | script.js:147-154 | on a balance of -Infinity the amount "Infinity" gives a NaN sum, and the balance sent is "0.00" |
| Kiosk.ProjectUsersListable | script.js:84-93 | every loaded user has a name and the users are in sheet order |
| Kiosk.BuildProfiles | script.js:84-92 | one fresh object per projected user, holding that user's fields, in order |
| Kiosk.Outcome | script.js:145-166 | a bad amount, a missing user, a failed PATCH and a success are each reported exactly when they occur |
| Kiosk.Profile.constructor | script.js:85-91 | a new user object holds the projected fields |
| Kiosk.Kiosk.constructor | script.js:7-8 | no users and no open user at start |
| Kiosk.Kiosk.LoadUsers | script.js:77-98 | on success `allUsers` becomes fresh objects equal to the projection, and it stays valid; on failure nothing changes; the open user is untouched |
| Kiosk.Kiosk.OpenUser | script.js:131-135 | opening a user sets `currentUser`, shows `toMoney` of its balance and clears the amount; the user list stays valid |
| Kiosk.Kiosk.EnterAmount | script.js:147 | the amount field holds the typed text, and nothing else changes; the user list stays valid |
| Kiosk.Kiosk.ConfirmTopUp | script.js:145-166 | the outcome is the one `TopUpRequest` prescribes; only a successful PATCH changes state: the open user's balance and the label become the balance sent and the amount field is cleared; no other user object changes; the user list stays valid |

## Left out

- Network I/O:
  - The GET, PATCH and POST requests are outcomes given to the model. `Kiosk.Fetched` stands for the fetch result, and the `patchSucceeds` argument for whether the PATCH succeeded.
  - The re-fetch after a top-up (script.js:163) and after an added profile (script.js:253) is a separate `LoadUsers` call, not part of `ConfirmTopUp`.
  - Posting the new profile is not modelled beyond `Profiles.Submit`.
- The DOM and browser APIs:
  - Alerts, console output and rendering are left out.
  - `FileReader`, `Image` and the canvas pixels are left out. `cropToSquare` returns its drawing plan; the JPEG data URL it encodes becomes the `thumbnail` argument of `Submit`.
  - `DEFAULT_AVATAR` is left out.
- Floating point:
  - Numbers are exact decimals, so there is no binary rounding, no overflow to Infinity and no loss of precision in `parseInt` of very long ids.
  - `toFixed`, `String(i)` and `Number.prototype.toString` switch to exponential notation ("1e+21") for magnitudes of 1e21 and above; the model's `toFixed(2)`, `JsText.IntToString` and `Rows.JsToString` print such values in full.
- The blur handler's reformatting of the amount field (script.js:261-264) is left out.
- JsText.Lower: lower-cases ASCII letters only, because full Unicode case mapping is not modelled.
- JSON values:
  - Cells are null, booleans, whole numbers or strings. Fractional numbers, nested arrays and nested objects are not modelled.
  - `raw || []` turns every falsy body (null, `false`, `0`, `""`) into `[]`; the model takes `None` for all of them. A truthy body that is not an array makes `.map` throw, and the model has no such body: it is always `None` or an array of rows.
  - A truthy non-object row is not modelled.
- `Object.keys` order, which puts integer-like keys first, is taken as the given order of a row's properties.
- Rows.NormalizeRow: the result is a map value rather than a fresh object, since nothing else holds a reference to it. A key that normalises to "__proto__" is kept in the map, which the script does not do (see the next line).
- Rows.NormalizedHasKey: a key that normalises to "__proto__" (for example " __Proto__") sets the prototype of the script's object instead of creating a property, while the model's map holds it as a key, so this lemma is stronger than the script for that one key. None of the keys the projection reads is affected.
- Money.ToMoneyNumber: `toMoney` of a number first runs `parseFloat`, and so `String(x)`, on it (script.js:154, 158). The model takes that step as the identity and rounds the number directly, because numbers are exact decimals here and conversion of a fractional number to text is not modelled.
- Kiosk.Kiosk.ConfirmTopUp: the handler throws when no user is open; the model reports `NoUserOpen` in that case.
- Kiosk.Kiosk.ConfirmTopUp: the handler is one atomic step. In the script it awaits the PATCH (script.js:155), and before the PATCH settles the Back button (script.js:140-142) and a tap on another card (script.js:132) can replace `currentUser`. Lines 158-159 then write the first user's new balance into the second user's object and label. The second user's next top-up reads that balance (script.js:153) and sends it to their own row. The model does not capture this interleaving.

=== FILE: crop.dfy ===
/** The geometry of cropToSquare: the largest centred square of the picture,
    drawn onto a size × size canvas. */
module Crop {
  /** The arguments of drawImage and the size of the canvas: the source square
      starts at (sx, sy) and has edge side; the destination is (0, 0, size, size). */
  datatype CropPlan = CropPlan(sx: real, sy: real, side: nat, size: nat, canvasWidth: nat, canvasHeight: nat)

  /** cropToSquare(img, size): the offsets are halves of the leftover width and
      height, which may be x.5. */
  function CropToSquare(width: nat, height: nat, size: nat): (p: CropPlan)
    ensures p.side <= width && p.side <= height
    ensures p.side == width || p.side == height
    ensures 2.0 * p.sx + p.side as real == width as real
    ensures 2.0 * p.sy + p.side as real == height as real
    ensures p.sx >= 0.0 && p.sy >= 0.0
    ensures p.sx + p.side as real <= width as real && p.sy + p.side as real <= height as real
    ensures p.sx == 0.0 || p.sy == 0.0
    ensures (p.sx == 0.0 && p.sy == 0.0) <==> width == height
    ensures p.canvasWidth == size && p.canvasHeight == size && p.size == size
  {
    var side := if width < height then width else height;
    CropPlan((width - side) as real / 2.0, (height - side) as real / 2.0, side, size, size, size)
  }
}

=== FILE: jstext.dfy ===
/** String primitives of the kiosk script as ECMAScript defines them:
    String.prototype.trim, String.prototype.toLowerCase (on ASCII letters),
    parseInt(s, 10) and the decimal rendering String(n) of an integer. */
module JsText {
  import opened Wrappers

  /** ECMAScript WhiteSpace and LineTerminator code points: what trim() removes and
      what parseInt/parseFloat skip before the number. */
  predicate IsSpace(c: char) {
    || c == '\t' || c == '\n' || c == '\U{000B}' || c == '\U{000C}' || c == '\r'
    || c == ' ' || c == '\U{00A0}' || c == '\U{1680}' || ('\U{2000}' <= c <= '\U{200A}')
    || c == '\U{2028}' || c == '\U{2029}' || c == '\U{202F}' || c == '\U{205F}'
    || c == '\U{3000}' || c == '\U{FEFF}'
  }

  /** A string that trim() leaves as it is. */
  predicate Trimmed(s: string) {
    s == [] || (!IsSpace(s[0]) && !IsSpace(s[|s| - 1]))
  }

  /** Drops the leading run of white space. */
  function TrimStart(s: string): (r: string)
    ensures |r| <= |s| && r == s[|s| - |r|..]
    ensures r == [] || !IsSpace(r[0])
  {
    if |s| > 0 && IsSpace(s[0]) then TrimStart(s[1..]) else s
  }

  /** Drops the trailing run of white space. */
  function TrimEnd(s: string): (r: string)
    ensures |r| <= |s| && r == s[..|r|]
    ensures r == [] || !IsSpace(r[|r| - 1])
  {
    if |s| > 0 && IsSpace(s[|s| - 1]) then TrimEnd(s[..|s| - 1]) else s
  }

  /** String.prototype.trim. */
  function Trim(s: string): (r: string)
    ensures Trimmed(r)
    ensures |r| <= |s|
  {
    var t := TrimStart(s);
    var r := TrimEnd(t);
    if r == [] then r
    else
      assert r[0] == t[0];
      r
  }

  /** TrimStart removes white space only. */
  lemma {:induction false} TrimStartRemovesSpace(s: string)
    ensures forall i :: 0 <= i < |s| - |TrimStart(s)| ==> IsSpace(s[i])
  {
    if |s| > 0 && IsSpace(s[0]) {
      TrimStartRemovesSpace(s[1..]);
    }
  }

  /** TrimEnd removes white space only. */
  lemma {:induction false} TrimEndRemovesSpace(s: string)
    ensures forall i :: |TrimEnd(s)| <= i < |s| ==> IsSpace(s[i])
  {
    if |s| > 0 && IsSpace(s[|s| - 1]) {
      TrimEndRemovesSpace(s[..|s| - 1]);
    }
  }

  /** trim() keeps a contiguous part of s and drops only white space around it. */
  lemma TrimSlice(s: string)
    ensures exists i, j ::
      && 0 <= i <= j <= |s| && Trim(s) == s[i..j]
      && (forall k :: 0 <= k < i ==> IsSpace(s[k]))
      && (forall k :: j <= k < |s| ==> IsSpace(s[k]))
  {
    var i, j := TrimBounds(s);
  }

  /** Where trim() cuts s: before i and from j on. */
  lemma TrimBounds(s: string) returns (i: int, j: int)
    ensures 0 <= i <= j <= |s| && Trim(s) == s[i..j]
    ensures forall k :: 0 <= k < i ==> IsSpace(s[k])
    ensures forall k :: j <= k < |s| ==> IsSpace(s[k])
  {
    var t := TrimStart(s);
    var r := TrimEnd(t);
    i := |s| - |t|;
    j := i + |r|;
    TrimStartRemovesSpace(s);
    TrimEndRemovesSpace(t);
    assert t == s[i..];
    assert r == s[i..j] by {
      assert r == t[..|r|];
    }
    SpaceAfter(s, i, |r|);
  }

  /** White space from n on in s[i..] is white space from i + n on in s. */
  lemma SpaceAfter(s: string, i: int, n: int)
    requires 0 <= i <= |s| && 0 <= n <= |s| - i
    requires forall m :: n <= m < |s| - i ==> IsSpace(s[i..][m])
    ensures forall k :: i + n <= k < |s| ==> IsSpace(s[k])
  {
    forall k | i + n <= k < |s|
      ensures IsSpace(s[k])
    {
      assert s[k] == s[i..][k - i];
    }
  }

  /** trim() leaves a string without white space at either end unchanged. */
  lemma TrimOfTrimmed(s: string)
    requires Trimmed(s)
    ensures Trim(s) == s
  {
  }

  predicate IsUpper(c: char) { 'A' <= c <= 'Z' }

  function LowerChar(c: char): (d: char)
    ensures !IsUpper(d)
    ensures IsSpace(d) == IsSpace(c)
    ensures !IsUpper(c) ==> d == c
  {
    if IsUpper(c) then (c as int + 32) as char else c
  }

  /** String.prototype.toLowerCase, restricted to the ASCII letters. */
  function Lower(s: string): (r: string)
    ensures |r| == |s|
    ensures forall i :: 0 <= i < |s| ==> r[i] == LowerChar(s[i])
    ensures forall i :: 0 <= i < |r| ==> !IsUpper(r[i])
  {
    seq(|s|, i requires 0 <= i < |s| => LowerChar(s[i]))
  }

  /** The key a row field is stored under after normalisation: `k.trim().toLowerCase()`. */
  function NormKey(k: string): (r: string)
    ensures Trimmed(r)
    ensures forall i :: 0 <= i < |r| ==> !IsUpper(r[i])
  {
    Lower(Trim(k))
  }

  /** Normalising a key that is already normalised changes nothing. */
  lemma {:induction false} NormKeyIdempotent(k: string)
    ensures NormKey(NormKey(k)) == NormKey(k)
  {
    NormKeyOfNormal(NormKey(k));
  }

  /** A key that is trimmed and has no upper-case letter is its own normal form. */
  lemma NormKeyOfNormal(k: string)
    requires Trimmed(k) && forall i :: 0 <= i < |k| ==> !IsUpper(k[i])
    ensures NormKey(k) == k
  {
    TrimOfTrimmed(k);
    assert Lower(k) == k;
  }

  // ---- Decimal digits ----

  predicate IsDigit(c: char) { '0' <= c <= '9' }

  predicate AllDigits(s: string) {
    forall i :: 0 <= i < |s| ==> IsDigit(s[i])
  }

  function DigitValue(c: char): (d: nat)
    requires IsDigit(c)
    ensures d < 10
  {
    c as int - '0' as int
  }

  function DigitChar(d: nat): (c: char)
    requires d < 10
    ensures IsDigit(c) && DigitValue(c) == d
  {
    ('0' as int + d) as char
  }

  /** Length of the leading run of decimal digits. */
  function DigitPrefix(s: string): (n: nat)
    ensures n <= |s|
    ensures AllDigits(s[..n])
    ensures n < |s| ==> !IsDigit(s[n])
  {
    if |s| > 0 && IsDigit(s[0]) then 1 + DigitPrefix(s[1..]) else 0
  }

  lemma {:induction false} DigitPrefixOf(d: string, rest: string)
    requires AllDigits(d)
    requires rest == [] || !IsDigit(rest[0])
    ensures DigitPrefix(d + rest) == |d|
  {
    if d != [] {
      assert (d + rest)[1..] == d[1..] + rest;
      DigitPrefixOf(d[1..], rest);
    } else {
      assert d + rest == rest;
    }
  }

  /** The number a digit string denotes in base 10. */
  function DigitsValue(s: string): nat
    requires AllDigits(s)
  {
    if s == [] then 0 else 10 * DigitsValue(s[..|s| - 1]) + DigitValue(s[|s| - 1])
  }

  /** Decimal rendering of a natural number: digits only, no leading zero. */
  function NatToString(n: nat): (s: string)
    ensures |s| > 0 && AllDigits(s)
    ensures |s| > 1 ==> s[0] != '0'
  {
    if n < 10 then [DigitChar(n)] else NatToString(n / 10) + [DigitChar(n % 10)]
  }

  lemma {:induction false} NatToStringValue(n: nat)
    ensures DigitsValue(NatToString(n)) == n
  {
    if n >= 10 {
      var s := NatToString(n);
      assert s[..|s| - 1] == NatToString(n / 10);
      NatToStringValue(n / 10);
    }
  }

  /** String(i) for an integer i: a '-' exactly when i is negative, then the decimal
      digits of its magnitude, without a leading zero. */
  function IntToString(i: int): (s: string)
    ensures |s| > 0 && (s[0] == '-' <==> i < 0)
    ensures var d := if i < 0 then s[1..] else s;
      && |d| > 0 && AllDigits(d) && (|d| > 1 ==> d[0] != '0')
      && DigitsValue(d) == if i < 0 then -i else i
  {
    var n: nat := if i < 0 then -i else i;
    var d := NatToString(n);
    NatToStringValue(n);
    if i < 0 then
      assert ("-" + d)[1..] == d;
      "-" + d
    else d
  }

  /** parseInt(s, 10): skip leading white space, read an optional sign and the longest
      run of decimal digits; with no digit the result is NaN (None). */
  function ParseInt(s: string): Option<int> {
    if |s| > 0 && IsSpace(s[0]) then ParseInt(s[1..]) else ParseIntSigned(s)
  }

  /** parseInt reads what follows exactly the white space that trim() would drop,
      and is NaN exactly when no digit follows the optional sign there. */
  lemma {:induction false} ParseIntTrimStart(s: string)
    ensures ParseInt(s) == ParseIntSigned(TrimStart(s))
    ensures ParseInt(s).None? <==> DigitPrefix(SignedBody(TrimStart(s))) == 0
  {
    if |s| > 0 && IsSpace(s[0]) {
      ParseIntTrimStart(s[1..]);
    }
  }

  /** parseInt after the leading white space: an optional sign and the longest run
      of digits. */
  function ParseIntSigned(t: string): Option<int> {
    var body := SignedBody(t);
    var n := DigitPrefix(body);
    if n == 0 then None
    else
      var v: int := DigitsValue(body[..n]);
      Some(if IsNegative(t) then -v else v)
  }

  predicate IsNegative(t: string) { |t| > 0 && t[0] == '-' }

  /** What follows an optional leading '+' or '-'. */
  function SignedBody(t: string): (b: string)
    ensures b == t || (|t| > 0 && b == t[1..] && (t[0] == '+' || t[0] == '-'))
  {
    if |t| > 0 && (t[0] == '+' || t[0] == '-') then t[1..] else t
  }

  lemma WholeDigitPrefix(d: string)
    requires AllDigits(d)
    ensures DigitPrefix(d) == |d| && d[..|d|] == d
  {
    DigitPrefixOf(d, []);
    assert d + [] == d;
  }

  /** parseInt reads a digit string back as the number it denotes. */
  lemma ParseIntOfDigits(d: string)
    requires |d| > 0 && AllDigits(d)
    ensures ParseInt(d) == Some(DigitsValue(d) as int)
  {
    assert !IsSpace(d[0]);
    assert SignedBody(d) == d;
    WholeDigitPrefix(d);
  }

  /** parseInt reads '-' and a digit string as the negated number. */
  lemma ParseIntOfNegatedDigits(t: string)
    requires |t| > 1 && t[0] == '-' && AllDigits(t[1..])
    ensures ParseInt(t) == Some(-(DigitsValue(t[1..]) as int))
  {
    assert !IsSpace(t[0]);
    assert SignedBody(t) == t[1..];
    WholeDigitPrefix(t[1..]);
  }

  /** parseInt recovers every integer from its decimal rendering. */
  lemma {:induction false} ParseIntOfIntToString(i: int)
    ensures ParseInt(IntToString(i)) == Some(i)
  {
    if i < 0 {
      NatToStringValue(-i);
      assert IntToString(i)[1..] == NatToString(-i);
      ParseIntOfNegatedDigits(IntToString(i));
    } else {
      NatToStringValue(i);
      ParseIntOfDigits(NatToString(i));
    }
  }
}

=== FILE: kiosk.dfy ===
/** The kiosk's mutable state: the loaded user objects, the user open in the
    modal, the balance shown there and the amount field, and the handlers that
    update them. */
module Kiosk {
  import opened Wrappers
  import opened Money
  import opened Rows
  import opened TopUp

  /** A user object of allUsers. Only its balance is ever assigned after it is
      built. */
  class Profile {
    const row: nat
    const id: string
    const name: string
    const image: string
    var balance: string

    constructor (u: User)
      ensures Snapshot() == u
    {
      row, id, name, image, balance := u.row, u.id, u.name, u.image, u.balance;
    }

    /** The object's fields as a value. */
    function Snapshot(): User
      reads this
    {
      User(row, id, name, image, balance)
    }
  }

  /** The profiles' fields, in order. */
  function Snapshots(ps: seq<Profile>): (us: seq<User>)
    reads ps
    ensures |us| == |ps| && forall i :: 0 <= i < |ps| ==> us[i] == ps[i].Snapshot()
  {
    seq(|ps|, i reads ps requires 0 <= i < |ps| => ps[i].Snapshot())
  }

  /** Users that may be listed: each has a name, and they are in sheet order. */
  predicate Listable(us: seq<User>) {
    && (forall i :: 0 <= i < |us| ==> us[i].name != "")
    && (forall i, j :: 0 <= i < j < |us| ==> us[i].row < us[j].row)
  }

  /** What fetchUsers keeps of a response can be listed. */
  lemma ProjectUsersListable(raw: Option<seq<RawRow>>)
    ensures Listable(ProjectUsers(raw))
  {
    if raw.Some? {
      var us := ProjectUsers(raw);
      ProjectUsersSpec(raw.value);
      forall i | 0 <= i < |us|
        ensures us[i].name != ""
      {
        assert us[i] in us;
      }
    }
  }

  /** A fresh object for each user, in order (the `map` of fetchUsers). */
  method BuildProfiles(us: seq<User>) returns (ps: seq<Profile>)
    ensures Snapshots(ps) == us
    ensures forall j :: 0 <= j < |ps| ==> fresh(ps[j])
  {
    ps := [];
    var i := 0;
    while i < |us|
      invariant 0 <= i <= |us| && |ps| == i
      invariant Snapshots(ps) == us[..i]
      invariant forall j :: 0 <= j < i ==> fresh(ps[j])
    {
      var p := new Profile(us[i]);
      ps := ps + [p];
      assert us[..i + 1] == us[..i] + [us[i]];
      i := i + 1;
    }
    assert us[..i] == us;
  }

  /** The outcome of the GET in fetchUsers: a failure (network, HTTP status or
      JSON) or the parsed body, None standing for null. */
  datatype Fetched = FetchFailed | Fetched(body: Option<seq<RawRow>>)

  /** How a press of the confirm button ends. */
  datatype Confirmed =
    | Rejected                             // "Please enter a valid amount."
    | NoUserOpen                           // currentUser was null: the handler throws
    | PatchFailed(request: PatchRequest)   // the PATCH threw: nothing is updated
    | Committed(request: PatchRequest)     // local state updated to the sent balance

  /** The outcome of a confirm press, for the step the handler computes and
      whether the PATCH succeeds. */
  function Outcome(step: TopUpStep, patchSucceeds: bool): (c: Confirmed)
    ensures c == Rejected <==> step == InvalidAmount
    ensures c == NoUserOpen <==> step == NoUser
    ensures c.Committed? <==> step.Send? && patchSucceeds
    ensures (c.Committed? || c.PatchFailed?) ==> step.Send? && c.request == step.request
  {
    match step
    case InvalidAmount => Rejected
    case NoUser => NoUserOpen
    case Send(request) => if patchSucceeds then Committed(request) else PatchFailed(request)
  }

  class Kiosk {
    var allUsers: seq<Profile>
    var currentUser: Profile?
    /** The text of the balance label in the modal. */
    var shownBalance: string
    /** The text of the amount field. */
    var amountInput: string

    /** Every listed user has a name, and the users are in sheet order. */
    predicate Valid()
      reads this, allUsers
    {
      Listable(Snapshots(allUsers))
    }

    /** The open user as a value, None when currentUser is null. */
    function Current(): Option<User>
      reads this, currentUser
    {
      if currentUser == null then None else Some(currentUser.Snapshot())
    }

    constructor ()
      ensures Valid()
      ensures allUsers == [] && currentUser == null && shownBalance == "" && amountInput == ""
    {
      allUsers, currentUser, shownBalance, amountInput := [], null, "", "";
    }

    /** fetchUsers: on success allUsers becomes fresh objects for the projected
        rows; on failure it is left as it was. The open user is kept either way,
        so after a reload it is no longer one of allUsers. */
    method LoadUsers(response: Fetched)
      requires Valid()
      modifies this
      ensures Valid()
      ensures response.FetchFailed? ==> allUsers == old(allUsers)
      ensures response.Fetched? ==> Snapshots(allUsers) == ProjectUsers(response.body)
      ensures response.Fetched? ==> forall i :: 0 <= i < |allUsers| ==> fresh(allUsers[i])
      ensures currentUser == old(currentUser) && shownBalance == old(shownBalance)
      ensures amountInput == old(amountInput)
    {
      if response.Fetched? {
        var us := ProjectUsers(response.body);
        ProjectUsersListable(response.body);
        var ps := BuildProfiles(us);
        allUsers := ps;
        forall j | 0 <= j < |ps|
          ensures ps[j].name == us[j].name && ps[j].row == us[j].row
        {
          assert ps[j].Snapshot() == Snapshots(ps)[j];
        }
      }
    }

    /** openUser: the card of allUsers[i] was pressed. The modal shows its balance
        through toMoney and clears the amount field. */
    method OpenUser(i: nat)
      requires Valid() && i < |allUsers|
      modifies this
      ensures Valid()
      ensures allUsers == old(allUsers) && currentUser == allUsers[i]
      ensures shownBalance == ToMoney(allUsers[i].balance) && amountInput == ""
    {
      currentUser := allUsers[i];
      shownBalance := ToMoney(currentUser.balance);
      amountInput := "";
    }

    /** Typing into the amount field. */
    method EnterAmount(text: string)
      requires Valid()
      modifies this
      ensures Valid()
      ensures amountInput == text
      ensures allUsers == old(allUsers) && currentUser == old(currentUser)
      ensures shownBalance == old(shownBalance)
    {
      amountInput := text;
    }

    /** The confirm handler; patchSucceeds is whether the PATCH to the sheet
        succeeds. Only a committed top-up changes anything: the open user's
        balance and the label both become the balance that was sent, the amount
        field is cleared, and no other user object changes. */
    method ConfirmTopUp(patchSucceeds: bool) returns (outcome: Confirmed)
      requires Valid()
      modifies this, currentUser
      ensures Valid()
      ensures outcome == Outcome(old(TopUpRequest(amountInput, Current())), patchSucceeds)
      ensures allUsers == old(allUsers) && currentUser == old(currentUser)
      ensures outcome.Committed? ==>
        && currentUser != null
        && currentUser.balance == outcome.request.balance
        && shownBalance == outcome.request.balance
        && amountInput == ""
        && outcome.request.row == currentUser.row
      ensures !outcome.Committed? ==>
        && shownBalance == old(shownBalance) && amountInput == old(amountInput)
        && (currentUser != null ==> currentUser.balance == old(currentUser.balance))
      ensures forall j :: 0 <= j < |allUsers| && allUsers[j] != currentUser ==>
        allUsers[j].balance == old(allUsers[j].balance)
    {
      var step := TopUpRequest(amountInput, Current());
      outcome := Outcome(step, patchSucceeds);
      if outcome.Committed? {
        currentUser.balance := outcome.request.balance;
        shownBalance := outcome.request.balance;
        amountInput := "";
      }
    }
  }
}

=== FILE: money.dfy ===
/** Money in the kiosk: parseFloat, Number.prototype.toFixed(2) and the script's
    toMoney, over exact decimal numbers instead of IEEE doubles. */
module Money {
  import opened Wrappers
  import opened JsText

  /** A JavaScript number other than NaN (NaN is the None of an Option<Num>):
      Finite(m, e) is the exact value m × 10^e. */
  datatype Num = Finite(mantissa: int, exponent: int) | PosInfinity | NegInfinity

  /** m × 10^k. */
  function Shift(m: int, k: nat): (r: int)
    ensures m >= 0 ==> r >= m
  {
    if k == 0 then m else 10 * Shift(m, k - 1)
  }

  /** A finite number counted in units of 10^f, for a unit no larger than its own:
      the whole number m × 10^(e - f). Two numbers with the same count of a common
      unit are equal. */
  function Units(x: Num, f: int): int
    requires x.Finite? && f <= x.exponent
  {
    Shift(x.mantissa, x.exponent - f)
  }

  lemma {:induction false} ShiftAdd(a: int, b: int, k: nat)
    ensures Shift(a + b, k) == Shift(a, k) + Shift(b, k)
  {
    if k > 0 {
      ShiftAdd(a, b, k - 1);
    }
  }

  lemma {:induction false} ShiftShift(m: int, a: nat, b: nat)
    ensures Shift(Shift(m, a), b) == Shift(m, a + b)
  {
    if b > 0 {
      ShiftShift(m, a, b - 1);
    }
  }

  /** p is a prefix of s, compared one character at a time. */
  predicate StartsWith(s: string, p: string) {
    p == [] || (s != [] && s[0] == p[0] && StartsWith(s[1..], p[1..]))
  }

  /** The ExponentPart of a decimal literal at the start of s ('e' or 'E', an optional
      sign, at least one digit); 0 when there is none. */
  function Exponent(s: string): int {
    if |s| > 0 && (s[0] == 'e' || s[0] == 'E') then
      var t := s[1..];
      var b := SignedBody(t);
      var n := DigitPrefix(b);
      if n == 0 then 0
      else
        var v: int := DigitsValue(b[..n]);
        if IsNegative(t) then -v else v
    else 0
  }

  /** The longest unsigned decimal literal (digits, an optional '.' and fraction
      digits, an optional exponent) at the start of s, as a mantissa and an exponent;
      None when the literal would hold no digit at all. */
  function UnsignedDecimal(s: string): (r: Option<(nat, int)>)
  {
    var ip := DigitPrefix(s);
    var hasDot := ip < |s| && s[ip] == '.';
    var frac := if hasDot then s[ip + 1..][..DigitPrefix(s[ip + 1..])] else [];
    if ip + |frac| == 0 then None
    else
      var rest := if hasDot then s[ip + 1 + |frac|..] else s[ip..];
      var digits := s[..ip] + frac;
      assert AllDigits(digits) by {
        assert forall i :: 0 <= i < |digits| ==> digits[i] == if i < ip then s[i] else frac[i - ip];
      }
      Some((DigitsValue(digits), Exponent(rest) - |frac|))
  }

  /** parseFloat: skip leading white space, read an optional sign, then "Infinity" or
      the longest decimal literal; None stands for NaN. */
  function ParseFloat(s: string): Option<Num> {
    if |s| > 0 && IsSpace(s[0]) then ParseFloat(s[1..]) else ParseFloatSigned(s)
  }

  /** parseFloat reads what follows the leading white space that trim() would drop. */
  lemma {:induction false} ParseFloatTrimStart(s: string)
    ensures ParseFloat(s) == ParseFloatSigned(TrimStart(s))
  {
    if |s| > 0 && IsSpace(s[0]) {
      ParseFloatTrimStart(s[1..]);
    }
  }

  /** parseFloat after the leading white space. */
  function ParseFloatSigned(t: string): (r: Option<Num>)
    ensures r.Some? && r.value.Finite? && r.value.mantissa < 0 ==> IsNegative(t)
  {
    var body := SignedBody(t);
    if StartsWith(body, "Infinity") then Some(if IsNegative(t) then NegInfinity else PosInfinity)
    else
      match UnsignedDecimal(body)
      case None => None
      case Some((m, e)) => Some(Finite(if IsNegative(t) then -(m as int) else m, e))
  }

  lemma {:induction false} ShiftTen(m: int, k: nat)
    ensures Shift(10 * m, k) == 10 * Shift(m, k)
  {
    if k > 0 {
      ShiftTen(m, k - 1);
    }
  }

  /** The whole number of cents nearest to m × 10^e, the larger one on a tie (the
      integer n of toFixed(2)): digits are appended while there are fewer than two
      fraction digits, dropped while there are more than three, and the third
      fraction digit is rounded half up. */
  function Cents(m: nat, e: int): nat
    decreases if e < -2 then -e else e + 3
  {
    if e > -2 then Cents(10 * m, e - 1)
    else if e == -2 then m
    else if e == -3 then (m + 5) / 10
    else Cents(m / 10, e + 1)
  }

  /** With at most two fraction digits, m × 10^e is a whole number of cents. */
  lemma {:induction false} CentsExact(m: nat, e: int)
    requires e >= -2
    ensures Cents(m, e) == Shift(m, e + 2)
    decreases e + 2
  {
    if e > -2 {
      CentsExact(10 * m, e - 1);
      ShiftTen(m, e + 1);
    }
  }

  /** With more than two fraction digits, Cents(m, e) is the n with
      n - 1/2 <= m × 10^e × 100 < n + 1/2: the nearest whole number of cents, the
      larger one on a tie. */
  lemma {:induction false} CentsNearest(m: nat, e: int)
    requires e < -2
    ensures Shift(Cents(m, e), -2 - e) <= m + Shift(5, -3 - e) < Shift(Cents(m, e) + 1, -2 - e)
    decreases -e
  {
    if e < -3 {
      CentsNearest(m / 10, e + 1);
    }
  }

  /** The digits of a whole number of cents with exactly two fraction digits. */
  function CentsText(n: nat): string {
    NatToString(n / 100) + "." + [DigitChar(n / 10 % 10), DigitChar(n % 10)]
  }

  /** What toFixed(2) prints, before it is printed: a sign and a whole number of
      cents, or a signed infinity. The sign of a finite value survives rounding to
      zero cents, so that (-0.001).toFixed(2) is "-0.00". */
  datatype Fixed = Digits(negative: bool, cents: nat) | Infinite(negative: bool)

  /** The rounding step of toFixed(2): the nearest whole number of cents, the larger
      magnitude on a tie. */
  function Round(x: Num): (r: Fixed)
    ensures r.Digits? <==> x.Finite?
    ensures r.negative <==> (x.Finite? && x.mantissa < 0) || x == NegInfinity
  {
    match x
    case Finite(m, e) => Digits(m < 0, Cents(if m < 0 then -m else m, e))
    case PosInfinity => Infinite(false)
    case NegInfinity => Infinite(true)
  }

  function SignText(negative: bool): string {
    if negative then "-" else ""
  }

  /** The printing step of toFixed(2). */
  function FixedText(f: Fixed): string {
    match f
    case Digits(neg, n) => SignText(neg) + CentsText(n)
    case Infinite(neg) => SignText(neg) + "Infinity"
  }

  /** The number that a printed Fixed stands for. */
  function FixedValue(f: Fixed): Num {
    match f
    case Digits(neg, n) => Finite(if neg then -(n as int) else n, -2)
    case Infinite(neg) => if neg then NegInfinity else PosInfinity
  }

  /** Number.prototype.toFixed(2): infinities print as themselves, a negative value
      as '-' and the digits of its rounded magnitude. */
  function Fixed2(x: Num): string {
    FixedText(Round(x))
  }

  /** A string of the form [-]digits.dd */
  predicate IsFixed2(s: string) {
    var k := if |s| > 0 && s[0] == '-' then 1 else 0;
    && |s| >= k + 4
    && s[|s| - 3] == '.'
    && forall i :: k <= i < |s| && i != |s| - 3 ==> IsDigit(s[i])
  }

  lemma CentsTextShape(n: nat)
    ensures IsFixed2(CentsText(n)) && IsFixed2("-" + CentsText(n))
  {
    var c := CentsText(n);
    var d := NatToString(n / 100);
    assert forall i :: 0 <= i < |d| ==> c[i] == d[i];
    var t := "-" + c;
    assert forall i :: 1 <= i < |t| ==> t[i] == c[i - 1];
  }

  /** Whatever finite value toFixed(2) prints has exactly two fraction digits;
      an infinity prints without any digit. */
  lemma FixedTextShape(f: Fixed)
    ensures f.Digits? <==> IsFixed2(FixedText(f))
  {
    match f
    case Digits(neg, n) =>
      CentsTextShape(n);
      assert SignText(false) + CentsText(n) == CentsText(n);
    case Infinite(neg) =>
      var t := FixedText(f);
      assert t[|t| - 3] == 'i';
  }

  /** toMoney applied to a number: NaN becomes "0.00", anything else toFixed(2). */
  function ToMoneyNumber(x: Option<Num>): (r: string)
    ensures x.None? ==> r == "0.00"
  {
    if x.None? then "0.00" else Fixed2(x.value)
  }

  /** toMoney(n) of the script: parseFloat, then "0.00" for NaN, otherwise toFixed(2). */
  function ToMoney(s: string): (r: string)
    ensures ParseFloat(s).None? ==> r == "0.00"
  {
    ToMoneyNumber(ParseFloat(s))
  }

  /** What toMoney rounds s to before printing it: zero for NaN. */
  function MoneyFixed(s: string): Fixed {
    var p := ParseFloat(s);
    if p.None? then Digits(false, 0) else Round(p.value)
  }

  lemma ZeroText()
    ensures CentsText(0) == "0.00" && FixedText(Digits(false, 0)) == "0.00"
  {
    assert NatToString(0) == "0";
  }

  /** toMoney prints what it rounds to, zero for anything parseFloat cannot read. */
  lemma ToMoneyText(s: string)
    ensures ToMoney(s) == FixedText(MoneyFixed(s))
  {
    ZeroText();
  }

  /** toMoney prints two fraction digits exactly when its input is unreadable or
      finite: an infinity prints without any. */
  lemma ToMoneyShape(s: string)
    ensures ParseFloat(s).None? || ParseFloat(s).value.Finite? <==> IsFixed2(ToMoney(s))
  {
    ToMoneyText(s);
    FixedTextShape(MoneyFixed(s));
  }

  /** toMoney of a number prints it rounded to cents: parseFloat reads the text t
      back as the rounded value, and as zero for NaN. */
  lemma ToMoneyNumberReadsBack(x: Option<Num>, t: string)
    requires t == ToMoneyNumber(x)
    ensures ParseFloat(t) == Some(if x.None? then Finite(0, -2) else FixedValue(Round(x.value)))
  {
    var f := if x.None? then Digits(false, 0) else Round(x.value);
    ZeroText();
    assert t == FixedText(f);
    FixedRoundTrip(f);
  }

  // ---- Round trip: what toFixed(2) prints, parseFloat reads back as the rounded value ----

  lemma TwoDigits(n: nat, tail: string)
    requires tail == [DigitChar(n / 10 % 10), DigitChar(n % 10)]
    ensures AllDigits(tail) && DigitsValue(tail) == n % 100
  {
    assert tail[..1] == [DigitChar(n / 10 % 10)];
    assert [DigitChar(n / 10 % 10)][..0] == [];
    assert DigitsValue(tail[..1]) == n / 10 % 10;
    assert DigitsValue(tail) == 10 * (n / 10 % 10) + n % 10;
  }

  lemma DigitsValueAppend2(d: string, tail: string)
    requires AllDigits(d) && AllDigits(tail) && |tail| == 2
    ensures AllDigits(d + tail)
    ensures DigitsValue(d + tail) == 100 * DigitsValue(d) + DigitsValue(tail)
  {
    var s := d + tail;
    assert s[..|s| - 1] == d + tail[..1];
    assert (d + tail[..1])[..|d|] == d;
    assert tail[..1][..0] == [];
    assert DigitsValue(tail) == 10 * DigitsValue(tail[..1]) + DigitValue(tail[1]);
  }

  lemma {:induction false} ParseCentsText(n: nat)
    ensures UnsignedDecimal(CentsText(n)) == Some((n, -2))
    ensures IsDigit(CentsText(n)[0])
  {
    var d := NatToString(n / 100);
    var tail := [DigitChar(n / 10 % 10), DigitChar(n % 10)];
    var s := CentsText(n);
    assert s == d + ("." + tail);
    DigitPrefixOf(d, "." + tail);
    var ip := |d|;
    assert s[..ip] == d;
    assert s[ip] == '.';
    assert s[ip + 1..] == tail;
    TwoDigits(n, tail);
    DigitPrefixOf(tail, []);
    assert tail + [] == tail;
    assert tail[..2] == tail;
    assert s[ip + 1 + 2..] == [];
    assert Exponent([]) == 0;
    NatToStringValue(n / 100);
    DigitsValueAppend2(d, tail);
    assert s[0] == d[0];
  }

  lemma DifferentHead(s: string, p: string)
    requires |s| > 0 && |p| > 0 && s[0] != p[0]
    ensures !StartsWith(s, p)
  {
  }

  /** On a string that starts with a digit, parseFloat is the decimal literal's value. */
  lemma ParseFloatOfDigits(s: string, m: nat, e: int)
    requires |s| > 0 && IsDigit(s[0]) && UnsignedDecimal(s) == Some((m, e))
    ensures ParseFloat(s) == Some(Finite(m, e))
  {
    DifferentHead(s, "Infinity");
    assert !IsSpace(s[0]);
    assert SignedBody(s) == s;
  }

  /** On '-' followed by a string that starts with a digit, parseFloat is the negated
      value of the decimal literal. */
  lemma ParseFloatOfNegatedDigits(t: string, m: nat, e: int)
    requires |t| > 1 && t[0] == '-' && IsDigit(t[1]) && UnsignedDecimal(t[1..]) == Some((m, e))
    ensures ParseFloat(t) == Some(Finite(-(m as int), e))
  {
    DifferentHead(t[1..], "Infinity");
    assert !IsSpace(t[0]);
    assert SignedBody(t) == t[1..];
  }

  lemma InfinityText(sign: string)
    requires sign == "" || sign == "-"
    ensures !IsSpace((sign + "Infinity")[0])
    ensures SignedBody(sign + "Infinity") == "Infinity"
    ensures IsNegative(sign + "Infinity") == (sign == "-")
    ensures StartsWith("Infinity", "Infinity")
  {
    var t := sign + "Infinity";
    assert t[0] == (if sign == "" then 'I' else '-');
    assert !IsSpace(t[0]);
    assert t[|sign|..] == "Infinity";
  }

  lemma ParseCentsTextAt(n: nat, t: string)
    requires t == CentsText(n)
    ensures ParseFloat(t) == Some(Finite(n, -2))
  {
    ParseCentsText(n);
    ParseFloatOfDigits(t, n, -2);
  }

  lemma ParseNegatedCentsText(n: nat, t: string)
    requires t == "-" + CentsText(n)
    ensures ParseFloat(t) == Some(Finite(-(n as int), -2))
  {
    var c := CentsText(n);
    ParseCentsText(n);
    assert t[1..] == c;
    ParseFloatOfNegatedDigits(t, n, -2);
  }

  /** parseFloat reads whatever toFixed(2) prints back as the value printed: the
      rounded number, an infinity as that infinity. */
  lemma FixedRoundTrip(f: Fixed)
    ensures ParseFloat(FixedText(f)) == Some(FixedValue(f))
  {
    var t := FixedText(f);
    match f
    case Digits(neg, n) =>
      if neg {
        ParseNegatedCentsText(n, t);
      } else {
        assert t == CentsText(n);
        ParseCentsTextAt(n, t);
      }
    case Infinite(neg) =>
      InfinityText(SignText(neg));
  }

  /** toFixed(2) prints a value already rounded to cents as it printed the original,
      unless that value was negative and rounded to zero cents: "-0.00" reads back as
      zero. */
  lemma {:induction false} RoundFixedValue(f: Fixed)
    ensures Round(FixedValue(f)) == if f == Digits(true, 0) then Digits(false, 0) else f
  {
    match f
    case Digits(neg, n) =>
      assert Cents(n, -2) == n;
    case Infinite(neg) =>
  }

  /** The rounded value that toFixed(2) prints as "-0.00": negative, zero cents. */
  predicate NegativeZero(f: Fixed) {
    f == Digits(true, 0)
  }

  /** A whole number of cents c, signed, as toFixed(2) holds it before printing: it
      stands for c / 100, and zero is never marked negative. */
  function CentsFixed(c: int): (f: Fixed)
    ensures f.Digits? && FixedValue(f) == Finite(c, -2)
    ensures !NegativeZero(f)
  {
    Digits(c < 0, if c < 0 then -c else c)
  }

  /** toMoney is stable on its own output, except on a negative value that rounds to
      zero cents: "-0.00" parses as -0, which toFixed prints as "0.00". */
  lemma {:induction false} ToMoneyOfFixedText(f: Fixed, t: string)
    requires t == FixedText(f)
    ensures ToMoney(t) == if NegativeZero(f) then "0.00" else t
  {
    FixedRoundTrip(f);
    RoundFixedValue(f);
    ZeroText();
  }

  lemma ToMoneyStable(s: string)
    requires !NegativeZero(MoneyFixed(s))
    ensures ToMoney(ToMoney(s)) == ToMoney(s)
  {
    ToMoneyText(s);
    ToMoneyOfFixedText(MoneyFixed(s), ToMoney(s));
  }

  /** The exception to stability: an amount in (-0.005, 0) rounds to negative zero
      cents, so it prints as "-0.00", which toMoney then prints as "0.00"
      (ToMoneyOfFixedText). */
  lemma NegativeZeroCorner(m: int, e: int)
    requires m < 0 && Cents(-m, e) == 0
    ensures NegativeZero(Round(Finite(m, e)))
    ensures Fixed2(Finite(m, e)) == "-0.00"
  {
    ZeroText();
  }
}

=== FILE: profiles.dfy ===
/** Adding a profile: the next id (a reduce over the loaded users) and the checks
    made before a new row is posted. */
module Profiles {
  import opened Wrappers
  import opened JsText
  import opened Rows

  /** One step of the reduce: the larger of the running maximum and the user's id,
      when parseInt reads a number from it. */
  function IdStep(max: int, u: User): int {
    match ParseInt(u.id)
    case Some(n) => if n > max then n else max
    case None => max
  }

  /** `users.reduce(IdStep, 0)`: at least 0 and at least every id that parses. */
  function MaxId(users: seq<User>): (r: int)
    decreases |users|
    ensures r >= 0
    ensures forall i :: 0 <= i < |users| && ParseInt(users[i].id).Some? ==>
      ParseInt(users[i].id).value <= r
  {
    if users == [] then 0
    else
      var p := users[..|users| - 1];
      StepBounds(p, users[|users| - 1], MaxId(p));
      assert users == p + [users[|users| - 1]];
      IdStep(MaxId(p), users[|users| - 1])
  }

  /** One more step of the reduce keeps both bounds. */
  lemma StepBounds(p: seq<User>, last: User, m: int)
    requires m >= 0
    requires forall i :: 0 <= i < |p| && ParseInt(p[i].id).Some? ==> ParseInt(p[i].id).value <= m
    ensures var r := IdStep(m, last); var users := p + [last];
      && r >= 0
      && forall i :: 0 <= i < |users| && ParseInt(users[i].id).Some? ==> ParseInt(users[i].id).value <= r
  {
    var users := p + [last];
    IdStepBounds(m, last);
    assert forall i :: 0 <= i < |p| ==> users[i] == p[i];
  }

  lemma IdStepBounds(max: int, u: User)
    ensures IdStep(max, u) >= max
    ensures ParseInt(u.id).Some? ==> ParseInt(u.id).value <= IdStep(max, u)
  {
  }

  /** The maximum is 0 or the id of some user. */
  lemma {:induction false} MaxIdAttained(users: seq<User>)
    ensures MaxId(users) == 0 ||
      exists i :: 0 <= i < |users| && ParseInt(users[i].id) == Some(MaxId(users))
  {
    if users != [] {
      var p := users[..|users| - 1];
      MaxIdAttained(p);
      if MaxId(users) != MaxId(p) {
        assert ParseInt(users[|users| - 1].id) == Some(MaxId(users));
      } else if MaxId(p) != 0 {
        var i :| 0 <= i < |p| && ParseInt(p[i].id) == Some(MaxId(p));
        assert users[i] == p[i];
      }
    }
  }

  /** `String(maxId + 1)`: parseInt reads it back as one more than the maximum. */
  function NextId(users: seq<User>): (s: string)
    ensures ParseInt(s) == Some(MaxId(users) + 1)
  {
    var k := MaxId(users) + 1;
    var s := IntToString(k);
    ReadsBack(k, s);
    s
  }

  lemma ReadsBack(k: int, s: string)
    requires s == IntToString(k)
    ensures ParseInt(s) == Some(k)
  {
    ParseIntOfIntToString(k);
  }

  /** The next id reads back as a number of at least 1 that is greater than every
      numeric id among the users given, so none of them has it. */
  lemma NextIdFresh(users: seq<User>)
    ensures ParseInt(NextId(users)).Some? && ParseInt(NextId(users)).value >= 1
    ensures forall i :: 0 <= i < |users| && ParseInt(users[i].id).Some? ==>
      ParseInt(users[i].id).value < ParseInt(NextId(users)).value
    ensures forall i :: 0 <= i < |users| ==> users[i].id != NextId(users)
  {
  }

  /** Users whose id is not a number do not move the next id. */
  lemma NextIdIgnoresText(users: seq<User>, u: User)
    requires ParseInt(u.id).None?
    ensures NextId(users + [u]) == NextId(users)
  {
    assert (users + [u])[..|users|] == users;
  }

  /** With no users the first id is "1". */
  lemma NextIdOfNone()
    ensures NextId([]) == "1"
  {
    assert NatToString(1) == "1";
  }

  /** The row posted for a new profile (keys in the sheet's header casing). */
  datatype NewProfile = NewProfile(id: string, name: string, image: string, balance: string)

  datatype Submission =
    | NameMissing
    | ImageMissing
    | ImageUnreadable
    | Post(profile: NewProfile)

  /** The submit handler up to postRow: the trimmed name must be non-empty and a
      file chosen; thumbnail is the cropped data URL, None when the file could not
      be read or decoded. */
  function Submit(nameInput: string, hasFile: bool, thumbnail: Option<string>, users: seq<User>): (r: Submission)
    ensures r == NameMissing <==> Trim(nameInput) == []
    ensures r == ImageMissing <==> Trim(nameInput) != [] && !hasFile
    ensures r.Post? <==> Trim(nameInput) != [] && hasFile && thumbnail.Some?
    ensures r.Post? ==> r.profile.name == Trim(nameInput) && r.profile.name != [] && Trimmed(r.profile.name)
    ensures r.Post? ==> r.profile.image == thumbnail.value && r.profile.balance == "0.00"
    ensures r.Post? ==> r.profile.id == NextId(users)
  {
    var name := Trim(nameInput);
    if name == [] then NameMissing
    else if !hasFile then ImageMissing
    else if thumbnail.None? then ImageUnreadable
    else Post(NewProfile(NextId(users), name, thumbnail.value, "0.00"))
  }

  /** A posted profile gets an id that no loaded user has, greater than every
      numeric id among them. Rows without a name are not loaded users, so their
      ids are not looked at (NamelessIdIgnored). */
  lemma SubmitFreshId(nameInput: string, hasFile: bool, thumbnail: Option<string>, users: seq<User>)
    requires Submit(nameInput, hasFile, thumbnail, users).Post?
    ensures var id := Submit(nameInput, hasFile, thumbnail, users).profile.id;
      && (forall i :: 0 <= i < |users| ==> users[i].id != id)
      && ParseInt(id).Some? && ParseInt(id).value >= 1
      && (forall i :: 0 <= i < |users| && ParseInt(users[i].id).Some? ==>
            ParseInt(users[i].id).value < ParseInt(id).value)
  {
    NextIdFresh(users);
  }

  /** The next id is computed from the loaded users only: a row without a name is
      filtered out before the reduce, so its id never counts. */
  lemma NamelessIdIgnored(raw: seq<RawRow>, r: RawRow)
    requires ProjectRow(r, |raw|).name == ""
    ensures NextId(ProjectUsers(Some(raw + [r]))) == NextId(ProjectUsers(Some(raw)))
  {
    ProjectUsersAppendNameless(raw, r);
  }

  /** The id of a nameless row is issued again: for a sheet whose only row has
      id "1" and no name, the next id is "1". */
  lemma NamelessIdReissued(r: RawRow)
    requires ProjectRow(r, 0).name == "" && ProjectRow(r, 0).id == "1"
    ensures NextId(ProjectUsers(Some([r]))) == ProjectRow(r, 0).id
  {
    NamelessIdIgnored([], r);
    assert [] + [r] == [r];
    NextIdOfNone();
  }
}

=== FILE: rows.dfy ===
/** Rows of the sheet as the kiosk reads them: normalizeRow, the `??` fallbacks of
    the projection and the map/filter that turns raw rows into users. */
module Rows {
  import opened Wrappers
  import opened JsText
  import opened Money

  /** The JSON values a cell of the sheet can hold (numbers are whole numbers). */
  datatype Json = JNull | JBool(b: bool) | JNumber(n: int) | JString(s: string)

  /** One element of the fetched array: null/undefined, or an object given by its
      (key, value) pairs in the order Object.keys lists them. */
  datatype RawRow = Missing | Object(entries: seq<(string, Json)>)

  /** The object built by assigning the pairs in order: a later pair overwrites an
      earlier one with the same key. */
  function Assign(ps: seq<(string, Json)>): map<string, Json> {
    if ps == [] then map[]
    else Assign(ps[..|ps| - 1])[ps[|ps| - 1].0 := ps[|ps| - 1].1]
  }

  /** Each pair with its key trimmed and lower-cased. */
  function Rekeyed(es: seq<(string, Json)>): (ps: seq<(string, Json)>)
    ensures |ps| == |es|
    ensures forall i :: 0 <= i < |es| ==> ps[i] == (NormKey(es[i].0), es[i].1)
  {
    seq(|es|, i requires 0 <= i < |es| => (NormKey(es[i].0), es[i].1))
  }

  /** The record normalizeRow builds from the pairs es. */
  function Normalized(es: seq<(string, Json)>): map<string, Json> {
    Assign(Rekeyed(es))
  }

  /** `row || {}` followed by the loop of normalizeRow. */
  function NormalizedRow(row: RawRow): map<string, Json> {
    match row
    case Missing => map[]
    case Object(es) => Normalized(es)
  }

  /** normalizeRow: copies every property to a fresh object under its trimmed,
      lower-cased key; a null or undefined row gives the empty object. */
  method NormalizeRow(row: RawRow) returns (out: map<string, Json>)
    ensures out == NormalizedRow(row)
  {
    out := map[];
    var es := if row.Missing? then [] else row.entries;
    var i := 0;
    while i < |es|
      invariant 0 <= i <= |es|
      invariant out == Assign(Rekeyed(es)[..i])
    {
      var (k, v) := es[i];
      out := out[NormKey(k) := v];
      assert Rekeyed(es)[..i + 1][..i] == Rekeyed(es)[..i];
      i := i + 1;
    }
    assert Rekeyed(es)[..|es|] == Rekeyed(es);
  }

  lemma {:induction false} AssignHasKey(ps: seq<(string, Json)>, i: nat)
    requires i < |ps|
    ensures ps[i].0 in Assign(ps)
  {
    if i < |ps| - 1 {
      AssignHasKey(ps[..|ps| - 1], i);
    }
  }

  lemma {:induction false} AssignKeySource(ps: seq<(string, Json)>, k: string)
    requires k in Assign(ps)
    ensures exists i :: 0 <= i < |ps| && ps[i].0 == k && Assign(ps)[k] == ps[i].1
  {
    var p := ps[..|ps| - 1];
    var last := |ps| - 1;
    if ps[last].0 != k {
      assert k in Assign(p) && Assign(ps)[k] == Assign(p)[k];
      AssignKeySource(p, k);
      var i :| 0 <= i < |p| && p[i].0 == k && Assign(p)[k] == p[i].1;
      assert ps[i] == p[i];
    } else {
      assert Assign(ps)[k] == ps[last].1;
    }
  }

  lemma {:induction false} AssignLastWins(ps: seq<(string, Json)>, i: nat)
    requires i < |ps|
    requires forall j :: i < j < |ps| ==> ps[j].0 != ps[i].0
    ensures ps[i].0 in Assign(ps) && Assign(ps)[ps[i].0] == ps[i].1
  {
    if i < |ps| - 1 {
      var p := ps[..|ps| - 1];
      assert p[i] == ps[i];
      assert forall j :: i < j < |p| ==> p[j] == ps[j];
      AssignLastWins(p, i);
    }
  }

  /** Every input key's normalised form is a key of the output. */
  lemma NormalizedHasKey(es: seq<(string, Json)>, i: nat)
    requires i < |es|
    ensures NormKey(es[i].0) in Normalized(es)
  {
    AssignHasKey(Rekeyed(es), i);
  }

  /** Every output key is the normalised form of an input key, and holds the value
      of one such key. */
  lemma NormalizedKeySource(es: seq<(string, Json)>, k: string)
    requires k in Normalized(es)
    ensures exists i :: 0 <= i < |es| && NormKey(es[i].0) == k && Normalized(es)[k] == es[i].1
  {
    var ps := Rekeyed(es);
    AssignKeySource(ps, k);
    var i :| 0 <= i < |ps| && ps[i].0 == k && Assign(ps)[k] == ps[i].1;
    assert NormKey(es[i].0) == k && Normalized(es)[k] == es[i].1;
  }

  /** The last key in iteration order among those that normalise alike supplies
      the value. */
  lemma NormalizedLastWins(es: seq<(string, Json)>, i: nat)
    requires i < |es|
    requires forall j :: i < j < |es| ==> NormKey(es[j].0) != NormKey(es[i].0)
    ensures NormKey(es[i].0) in Normalized(es)
    ensures Normalized(es)[NormKey(es[i].0)] == es[i].1
  {
    var ps := Rekeyed(es);
    assert forall j :: i < j < |ps| ==> ps[j].0 != ps[i].0;
    AssignLastWins(ps, i);
  }

  /** Every key of a normalised row is already trimmed and lower case. */
  lemma NormalizedKeysNormal(row: RawRow, k: string)
    requires k in NormalizedRow(row)
    ensures NormKey(k) == k && Trimmed(k)
    ensures forall j :: 0 <= j < |k| ==> !IsUpper(k[j])
  {
    var es := row.entries;
    NormalizedKeySource(es, k);
    var i :| 0 <= i < |es| && NormKey(es[i].0) == k && Normalized(es)[k] == es[i].1;
    NormKeyIdempotent(es[i].0);
  }

  /** es lists the properties of the record m, as Object.keys and indexing would. */
  predicate Enumerates(es: seq<(string, Json)>, m: map<string, Json>) {
    && (forall i :: 0 <= i < |es| ==> es[i].0 in m && m[es[i].0] == es[i].1)
    && (forall k :: k in m ==> exists i :: 0 <= i < |es| && es[i].0 == k)
  }

  /** Normalising an object whose keys are all normalised, listed in any order,
      gives it back. */
  lemma NormalizeNormal(m: map<string, Json>, es: seq<(string, Json)>)
    requires Enumerates(es, m)
    requires forall k :: k in m ==> NormKey(k) == k
    ensures Normalized(es) == m
  {
    NormalizedWithin(m, es);
    NormalizedCovers(m, es);
    SameMaps(Normalized(es), m);
  }

  lemma SameMaps(n: map<string, Json>, m: map<string, Json>)
    requires forall k :: k in n ==> k in m && m[k] == n[k]
    requires forall k :: k in m ==> k in n
    ensures n == m
  {
    assert n.Keys == m.Keys;
  }

  lemma NormalizedWithin(m: map<string, Json>, es: seq<(string, Json)>)
    requires Enumerates(es, m)
    requires forall k :: k in m ==> NormKey(k) == k
    ensures forall k :: k in Normalized(es) ==> k in m && m[k] == Normalized(es)[k]
  {
    var n := Normalized(es);
    forall k | k in n
      ensures k in m && m[k] == n[k]
    {
      NormalizedKeySource(es, k);
      var i :| 0 <= i < |es| && NormKey(es[i].0) == k && n[k] == es[i].1;
    }
  }

  lemma NormalizedCovers(m: map<string, Json>, es: seq<(string, Json)>)
    requires Enumerates(es, m)
    requires forall k :: k in m ==> NormKey(k) == k
    ensures forall k :: k in m ==> k in Normalized(es)
  {
    forall k | k in m
      ensures k in Normalized(es)
    {
      var i :| 0 <= i < |es| && es[i].0 == k;
      NormalizedHasKey(es, i);
    }
  }

  /** normalizeRow is idempotent: normalising a normalised row, whatever order its
      keys are listed in, gives it back. */
  lemma NormalizeIdempotent(row: RawRow, es: seq<(string, Json)>)
    requires Enumerates(es, NormalizedRow(row))
    ensures NormalizedRow(Object(es)) == NormalizedRow(row)
  {
    var m := NormalizedRow(row);
    forall k | k in m
      ensures NormKey(k) == k
    {
      NormalizedKeysNormal(row, k);
    }
    NormalizeNormal(m, es);
  }

  /** The key holds a value that `??` does not skip: present and not null. */
  predicate Present(rec: map<string, Json>, k: string) {
    k in rec && rec[k] != JNull
  }

  /** None of the first i keys holds a value that `??` would take. */
  predicate SkippedBefore(rec: map<string, Json>, keys: seq<string>, i: int) {
    forall j :: 0 <= j < i && j < |keys| ==> !Present(rec, keys[j])
  }

  /** `rec.k1 ?? rec.k2 ?? … ?? fallback`: the value of the first key that is present
      and not null, or the fallback when there is none. */
  function Coalesce(rec: map<string, Json>, keys: seq<string>, fallback: Json): (v: Json)
    ensures fallback != JNull ==> v != JNull
    ensures forall i :: 0 <= i < |keys| && Present(rec, keys[i]) && SkippedBefore(rec, keys, i) ==>
      v == rec[keys[i]]
    ensures SkippedBefore(rec, keys, |keys|) ==> v == fallback
  {
    if keys == [] then fallback
    else if Present(rec, keys[0]) then rec[keys[0]]
    else
      var v := Coalesce(rec, keys[1..], fallback);
      assert forall i :: 1 <= i <= |keys| && SkippedBefore(rec, keys, i) ==> SkippedBefore(rec, keys[1..], i - 1);
      v
  }

  /** Value.prototype.toString for the values that reach it (never null). */
  function JsToString(v: Json): (s: string)
    requires v != JNull
    ensures v.JString? ==> s == v.s
    ensures v.JBool? ==> s == if v.b then "true" else "false"
    ensures v.JNumber? ==> ParseInt(s) == Some(v.n)
  {
    match v
    case JBool(b) => if b then "true" else "false"
    case JNumber(n) =>
      var s := IntToString(n);
      ParseIntOfIntToString(n);
      s
    case JString(s) => s
  }

  /** A user as fetchUsers builds it; row is the index in the fetched array. */
  datatype User = User(row: nat, id: string, name: string, image: string, balance: string)

  /** The object built for the raw row at index idx (its `_row` is idx). */
  function ProjectRow(r: RawRow, idx: nat): (u: User)
    ensures u.row == idx
  {
    var row := NormalizedRow(r);
    User(idx,
      JsToString(Coalesce(row, ["id", "ID", "Id"], JString(""))),
      JsToString(Coalesce(row, ["name", "Name"], JString(""))),
      JsToString(Coalesce(row, ["image", "Image"], JString(""))),
      ToMoney(JsToString(Coalesce(row, ["balance", "Balance"], JString("0.00")))))
  }

  /** Each field of a projected user is the value under its lower-case key when that
      is present and not null, as text, and otherwise the default: the capitalised
      fallbacks never apply. The balance goes through toMoney either way. */
  lemma ProjectRowFields(r: RawRow, idx: nat)
    ensures var row := NormalizedRow(r); var u := ProjectRow(r, idx);
      && u.id == (if Present(row, "id") then JsToString(row["id"]) else "")
      && u.name == (if Present(row, "name") then JsToString(row["name"]) else "")
      && u.image == (if Present(row, "image") then JsToString(row["image"]) else "")
      && u.balance == ToMoney(if Present(row, "balance") then JsToString(row["balance"]) else "0.00")
  {
    var row := NormalizedRow(r);
    CapitalisedKeysAbsent(r);
    CoalesceFirst(row, ["id", "ID", "Id"], JString(""));
    CoalesceFirst(row, ["name", "Name"], JString(""));
    CoalesceFirst(row, ["image", "Image"], JString(""));
    CoalesceFirst(row, ["balance", "Balance"], JString("0.00"));
  }

  /** A `??` chain whose later keys are all absent takes its first key's value when
      that is present and not null, and the fallback otherwise. */
  lemma CoalesceFirst(rec: map<string, Json>, keys: seq<string>, fallback: Json)
    requires |keys| > 0 && forall i :: 1 <= i < |keys| ==> keys[i] !in rec
    ensures Coalesce(rec, keys, fallback) == if Present(rec, keys[0]) then rec[keys[0]] else fallback
  {
    if !Present(rec, keys[0]) {
      assert SkippedBefore(rec, keys, |keys|);
    }
  }

  /** The rows with a non-empty name, in order (`filter(u => u.name)`): exactly the
      users of the input that have a name. */
  function KeepNamed(us: seq<User>): (r: seq<User>)
    ensures |r| <= |us|
    ensures forall u :: u in r <==> u in us && u.name != ""
  {
    if us == [] then []
    else
      var rest := KeepNamed(us[1..]);
      assert forall u :: u in us <==> u == us[0] || u in us[1..];
      (if us[0].name != "" then [us[0]] else []) + rest
  }

  /** `(raw || []).map(…).filter(u => u.name)`: no users for a falsy body, and
      otherwise named users taken from rows of the body. */
  function ProjectUsers(raw: Option<seq<RawRow>>): (r: seq<User>)
    ensures raw.None? ==> r == []
    ensures forall u :: u in r ==> raw.Some? && u.name != "" && u.row < |raw.value|
  {
    var rows := if raw.None? then [] else raw.value;
    var all := Projected(rows);
    var r := KeepNamed(all);
    assert forall u :: u in all ==> u.row < |rows|;
    r
  }

  /** A row without a name adds no user: the list for the rows plus that row is the
      list for the rows alone. */
  lemma ProjectUsersAppendNameless(raw: seq<RawRow>, r: RawRow)
    requires ProjectRow(r, |raw|).name == ""
    ensures ProjectUsers(Some(raw + [r])) == ProjectUsers(Some(raw))
  {
    var all := Projected(raw);
    ProjectedAppend(raw, r);
    KeepNamedAppendNameless(all, ProjectRow(r, |raw|));
  }

  /** The rows of a body projected one by one (the `map`), before the filter. */
  function Projected(rows: seq<RawRow>): (all: seq<User>)
    ensures |all| == |rows|
    ensures forall i :: 0 <= i < |rows| ==> all[i] == ProjectRow(rows[i], i)
  {
    seq(|rows|, i requires 0 <= i < |rows| => ProjectRow(rows[i], i))
  }


  lemma ProjectedAppend(raw: seq<RawRow>, r: RawRow)
    ensures Projected(raw + [r]) == Projected(raw) + [ProjectRow(r, |raw|)]
  {
    var rows := raw + [r];
    var want := Projected(raw) + [ProjectRow(r, |raw|)];
    var all2 := Projected(rows);
    forall i | 0 <= i < |rows|
      ensures all2[i] == want[i]
    {
      if i < |raw| {
        assert rows[i] == raw[i];
      } else {
        assert rows[i] == r;
      }
    }
  }

  lemma {:induction false} KeepNamedAppendNameless(us: seq<User>, u: User)
    requires u.name == ""
    ensures KeepNamed(us + [u]) == KeepNamed(us)
  {
    if us != [] {
      assert (us + [u])[1..] == us[1..] + [u];
      KeepNamedAppendNameless(us[1..], u);
    }
  }

  /** The capitalised fallbacks of the projection never apply: a normalised row has
      no key with an upper-case letter. */
  lemma CapitalisedKeysAbsent(r: RawRow)
    ensures "ID" !in NormalizedRow(r) && "Id" !in NormalizedRow(r)
    ensures "Name" !in NormalizedRow(r) && "Image" !in NormalizedRow(r)
    ensures "Balance" !in NormalizedRow(r)
  {
    forall k | k in NormalizedRow(r)
      ensures |k| == 0 || !IsUpper(k[0])
    {
      NormalizedKeysNormal(r, k);
    }
  }

  /** Filtering keeps the order: rows that increase stay increasing. */
  lemma {:induction false} KeepNamedOrdered(us: seq<User>)
    requires forall j, k :: 0 <= j < k < |us| ==> us[j].row < us[k].row
    ensures forall j, k :: 0 <= j < k < |KeepNamed(us)| ==> KeepNamed(us)[j].row < KeepNamed(us)[k].row
  {
    if us != [] {
      var t := us[1..];
      KeepNamedOrdered(t);
      var rest := KeepNamed(t);
      forall k | 0 <= k < |rest|
        ensures us[0].row < rest[k].row
      {
        assert rest[k] in t;
      }
    }
  }

  /** The projected list is exactly the raw rows with a non-empty name, in their
      original order, each keeping its index in the raw array as its row. */
  lemma ProjectUsersSpec(raw: seq<RawRow>)
    ensures forall u :: u in ProjectUsers(Some(raw)) ==> u.row < |raw| && u == ProjectRow(raw[u.row], u.row)
    ensures forall i :: 0 <= i < |raw| && ProjectRow(raw[i], i).name != "" ==>
      ProjectRow(raw[i], i) in ProjectUsers(Some(raw))
    ensures forall j, k :: 0 <= j < k < |ProjectUsers(Some(raw))| ==>
      ProjectUsers(Some(raw))[j].row < ProjectUsers(Some(raw))[k].row
  {
    KeepNamedOrdered(Projected(raw));
  }

  /** A missing or null balance becomes toMoney("0.00"), that is "0.00". */
  lemma ProjectRowBalanceDefault(r: RawRow, idx: nat)
    requires "balance" !in NormalizedRow(r) || NormalizedRow(r)["balance"] == JNull
    ensures ProjectRow(r, idx).balance == "0.00"
  {
    ProjectRowFields(r, idx);
    var t := FixedText(Digits(false, 0));
    ZeroText();
    ToMoneyOfFixedText(Digits(false, 0), t);
  }
}

=== FILE: topup.dfy ===
/** The arithmetic of the top-up confirm handler: which amounts it accepts, and the
    balance it sends to the sheet. */
module TopUp {
  import opened Wrappers
  import opened JsText
  import opened Money
  import opened Rows

  /** JavaScript addition of two numbers, NaN being None: NaN propagates, infinities
      of opposite signs give NaN, an infinity absorbs any finite number, and finite
      numbers add exactly (no rounding to a double): counted in any unit fine enough
      for both, the sum is the sum of the counts. */
  function Add(x: Option<Num>, y: Num): (r: Option<Num>)
    ensures x.None? ==> r.None?
    ensures x.Some? && x.value.Finite? && y.Finite? ==>
      && r.Some? && r.value.Finite?
      && forall f :: f <= x.value.exponent && f <= y.exponent ==>
           f <= r.value.exponent && Units(r.value, f) == Units(x.value, f) + Units(y, f)
    ensures x.Some? && (!x.value.Finite? || !y.Finite?) ==>
      (r.None? <==> (x.value == PosInfinity && y == NegInfinity) || (x.value == NegInfinity && y == PosInfinity))
    ensures r.Some? && (x.value == PosInfinity || y == PosInfinity) ==> r.value == PosInfinity
    ensures r.Some? && (x.value == NegInfinity || y == NegInfinity) ==> r.value == NegInfinity
  {
    if x.None? then None
    else
      match (x.value, y)
      case (Finite(m1, e1), Finite(m2, e2)) =>
        var e := if e1 < e2 then e1 else e2;
        AlignedSum(x.value, y, e);
        Some(Finite(Shift(m1, e1 - e) + Shift(m2, e2 - e), e))
      case (PosInfinity, NegInfinity) => None
      case (NegInfinity, PosInfinity) => None
      case (PosInfinity, _) => Some(PosInfinity)
      case (_, PosInfinity) => Some(PosInfinity)
      case _ => Some(NegInfinity)
  }

  /** Aligning both mantissas to the smaller exponent and adding them gives, in any
      unit fine enough for both, the sum of the two numbers. */
  lemma AlignedSum(x: Num, y: Num, e: int)
    requires x.Finite? && y.Finite? && e <= x.exponent && e <= y.exponent
    ensures var z := Finite(Shift(x.mantissa, x.exponent - e) + Shift(y.mantissa, y.exponent - e), e);
      forall f :: f <= e ==> Units(z, f) == Units(x, f) + Units(y, f)
  {
    var z := Finite(Shift(x.mantissa, x.exponent - e) + Shift(y.mantissa, y.exponent - e), e);
    forall f | f <= e
      ensures Units(z, f) == Units(x, f) + Units(y, f)
    {
      ShiftAdd(Shift(x.mantissa, x.exponent - e), Shift(y.mantissa, y.exponent - e), e - f);
      ShiftShift(x.mantissa, x.exponent - e, e - f);
      ShiftShift(y.mantissa, y.exponent - e, e - f);
    }
  }

  /** The amount passes `isNaN(amount) || amount <= 0` without returning. */
  predicate IsPositive(x: Option<Num>) {
    x.Some? && (x.value == PosInfinity || (x.value.Finite? && x.value.mantissa > 0))
  }

  /** `currentUser.balance || "0"`. */
  function BalanceText(balance: string): string {
    if balance == "" then "0" else balance
  }

  /** `parseFloat(currentUser.balance || "0")`, with parseFloat("0") evaluated. */
  function BalanceNumber(balance: string): Option<Num> {
    if balance == "" then Some(Finite(0, 0)) else ParseFloat(balance)
  }

  lemma BalanceNumberText(balance: string)
    ensures BalanceNumber(balance) == ParseFloat(BalanceText(balance))
  {
    if balance == "" {
      var t := BalanceText(balance);
      assert t == NatToString(0);
      ParseWhole(0, t);
    }
  }

  /** PATCH of the sheet row `row` with `{ Balance: balance }`. */
  datatype PatchRequest = PatchRequest(row: nat, balance: string)

  /** What the handler does before it awaits the PATCH: return on a bad amount,
      throw (and report) when no user is open, or send the new balance. */
  datatype TopUpStep = InvalidAmount | NoUser | Send(request: PatchRequest)

  /** The confirm handler up to patchRowByIndex, for the text in the amount field
      and the open user (None when currentUser is null). */
  function TopUpRequest(amountText: string, current: Option<User>): (r: TopUpStep)
    ensures r == InvalidAmount <==> !IsPositive(ParseFloat(amountText))
    ensures r == NoUser <==> IsPositive(ParseFloat(amountText)) && current.None?
    ensures r.Send? ==> current.Some? && r.request.row == current.value.row
  {
    var amount := ParseFloat(amountText);
    if !IsPositive(amount) then InvalidAmount
    else if current.None? then NoUser
    else
      var sum := Add(BalanceNumber(current.value.balance), amount.value);
      Send(PatchRequest(current.value.row, ToMoneyNumber(sum)))
  }

  /** With both texts already read as numbers, the step sends their sum, printed by
      toMoney (the text t). */
  lemma SendsSum(u: User, amountText: string, y: Num, t: string)
    requires ParseFloat(amountText) == Some(y) && IsPositive(Some(y))
    requires t == ToMoneyNumber(Add(BalanceNumber(u.balance), y))
    ensures TopUpRequest(amountText, Some(u)) == Send(PatchRequest(u.row, t))
  {
  }

  /** A number of cents (of either sign) plus a number with at most two fraction
      digits is exact. */
  lemma SumCents(a: int, m: nat, e: int)
    requires e >= -2
    ensures Add(Some(Finite(a, -2)), Finite(m, e)) == Some(Finite(a + Shift(m, e + 2), -2))
  {
    assert Shift(a, 0) == a;
  }

  /** A number of cents prints as those cents, with a '-' when it is negative. */
  lemma PrintCents(c: int)
    ensures ToMoneyNumber(Some(Finite(c, -2))) == FixedText(CentsFixed(c))
  {
    assert Cents(if c < 0 then -c else c, -2) == if c < 0 then -c else c;
    assert Round(Finite(c, -2)) == CentsFixed(c);
  }

  /** toMoney of a number of cents plus an amount with at most two fraction digits
      prints the exact sum in cents, signed. */
  lemma PrintSum(a: int, m: nat, e: int, c: int, t: string)
    requires e >= -2 && c == a + Shift(m, e + 2)
    requires t == FixedText(CentsFixed(c))
    ensures ToMoneyNumber(Add(Some(Finite(a, -2)), Finite(m, e))) == t
  {
    SumCents(a, m, e);
    PrintCents(c);
  }

  /** Top-ups in whole cents are exact: when the balance reads as a whole number a
      of cents, negative or not, and the amount as a positive number m × 10^e with
      at most two fraction digits, the balance sent is their exact sum in cents,
      printed with its sign and two fraction digits (the text t). */
  lemma TopUpExact(u: User, amountText: string, a: int, m: nat, e: int, t: string)
    requires e >= -2 && m > 0
    requires BalanceNumber(u.balance) == Some(Finite(a, -2))
    requires ParseFloat(amountText) == Some(Finite(m, e))
    requires t == FixedText(CentsFixed(a + Shift(m, e + 2)))
    ensures TopUpRequest(amountText, Some(u)) == Send(PatchRequest(u.row, t))
  {
    PrintSum(a, m, e, a + Shift(m, e + 2), t);
    SendsSum(u, amountText, Finite(m, e), t);
  }

  /** A balance the kiosk wrote reads back as its cents, negative or not, so
      successive top-ups stay exact. */
  lemma BalanceReadsBack(c: int, t: string)
    requires t == FixedText(CentsFixed(c))
    ensures BalanceNumber(t) == Some(Finite(c, -2))
  {
    FixedRoundTrip(CentsFixed(c));
    assert t != "";
  }

  /** parseFloat reads a run of digits as the whole number it denotes. */
  lemma ParseWhole(k: nat, t: string)
    requires t == NatToString(k)
    ensures ParseFloat(t) == Some(Finite(k, 0))
  {
    NatToStringValue(k);
    WholeDigitPrefix(t);
    assert t[..|t|] + [] == t;
    assert t[|t|..] == [];
    assert Exponent([]) == 0;
    ParseFloatOfDigits(t, k, 0);
  }

  /** "Infinity" is a valid amount: it passes both checks, and the balance sent is
      "Infinity" for any user whose balance reads as a finite number. */
  lemma InfinityAccepted(u: User, amountText: string)
    requires amountText == "Infinity"
    requires var b := BalanceNumber(u.balance); b.Some? && b.value.Finite?
    ensures TopUpRequest(amountText, Some(u)) == Send(PatchRequest(u.row, "Infinity"))
  {
    FixedRoundTrip(Infinite(false));
    assert FixedText(Infinite(false)) == "Infinity";
  }

  /** The exception: on a balance of -Infinity, the amount "Infinity" makes the sum
      NaN, and toMoney writes "0.00". */
  lemma InfinityOnNegativeInfinity(u: User, amountText: string)
    requires amountText == "Infinity"
    requires BalanceNumber(u.balance) == Some(NegInfinity)
    ensures TopUpRequest(amountText, Some(u)) == Send(PatchRequest(u.row, "0.00"))
  {
    FixedRoundTrip(Infinite(false));
    assert FixedText(Infinite(false)) == "Infinity";
  }
}

=== FILE: wrappers.dfy ===
/** The optional value used for JavaScript's "absent" results: NaN from a parse,
    `undefined` from a missing key. */
module Wrappers {

  datatype Option<+T> = None | Some(value: T)
}
